=== FILE: README.md ===
# visflow: Vega view, remote-spec gate and data source in Dafny

This project models four pieces of the visflow dataflow client and proves
properties of them.

- **The Vega view node** (`VegaView`, with brushing in `Brushing`):
  - brushing, where a Vega-Lite brush (a map from column name to an inclusive
    `[min, max]` range) filters the node's input items and becomes its selection;
  - the x / y / colour column-assignment rules (`applyColumns`,
    `findDefaultColumns`, the three setters);
  - what `draw` does: the cover text, and which fields rendering replaces;
  - the row-to-record transposition handed to the renderer;
  - the column-type to Vega-Lite encoding map;
  - the handling of a spec the user types, and of a selected view name.
- **The column-selection history events** (`VegaHistory`). These are the two
  option-event constructors and the three handlers that commit them. The colour
  handler reuses the Y-column event.
- **The remote-spec connector** (`SocketConnector`). This is a version gate in
  front of a list of subscriber callbacks, modelled as a state machine. Over
  arbitrary event sequences, the model proves that the accepted version is the
  running maximum of the versions received.
- **The data-source node** (`DataSource`). This is a state machine whose
  fetch is split into an "issue request" effect and later "resolved" /
  "rejected" events. The model states which transitions write the output port
  and which announce a port update. It proves that an out-of-order resolution
  overwrites a newer choice's data, because the code has no staleness check.

Supporting modules:

- `Options` holds `Option`, `Result` and safe indexing.
- `Sequences` holds subsequence, increasing enumeration, `indexOf` and
  counting lemmas.
- `Tabular` holds columns, rows, datasets, items and subset packages.

Helpers whose code is not part of this model become parameters of the
operations that call them:

| helper | parameter |
|---|---|
| `isNumericalType` | `isNumerical: ValueType -> bool` |
| `updateColumnOnDatasetChange` | `remap: nat -> Option<nat>` |
| `parseCsv` | `parse: string -> Result<Dataset, string>` (`DataSource.Parser`), whose failure carries the thrown error |
| `JSON.parse` | an already-parsed `Result<SpecValue, string>`, whose failure carries the error message |
| `updateRootView` with `applyColumnsToView`, `specParser.parse`, `specCompiler.getVegaSpecification` | `render: ViewState -> Option<Rendering>` (`VegaView.Renderer`): the flat view hierarchy, the compiled root spec and its JSON text, and whether the side-panel canvas exists; `None` when the render path throws |
| `hasDataset()`, `getDataset()` of the base node class | the input package's dataset (`VegaView.HasDataset`, `s.input.dataset`) |

JavaScript truthiness of a column number is modelled explicitly (`VegaView.IsSet`):
`null`, `undefined` and column `0` all count as unset.

Two facts about the data source's fetch:

- There is no staleness check: every resolution whose text parses writes the
  output, whichever request it answers (`DataSource.LastResolutionWins`,
  `DataSource.StaleResolutionOverwrites`).
- A failed fetch, or fetched text that does not parse, only reports the error;
  the output keeps its previous package (`DataSource.OnFetchRejected`,
  `DataSource.OnFetchResolved`).

## Model

| member | source | states |
|---|---|---|
| Brushing.BrushedDimensions | client/src/components/vega-viewer/vegaview.ts:357-361 | the brushed dimensions are exactly the dataset columns whose name is a brush key, kept in column order (a subsequence of the columns); brush keys naming no column contribute nothing |
| Brushing.ScanDims | client/src/components/vega-viewer/vegaview.ts:381-396 | the flag-carrying scan over the dimensions, with its early return, ends true iff it started true and every dimension's cell satisfies min <= cell <= max |
| Brushing.IsItemInBrush | client/src/components/vega-viewer/vegaview.ts:380-397 | a row is in the brush iff each given dimension's cell lies within that dimension's range, inclusive at both ends |
| Brushing.FilterInBrush | client/src/components/vega-viewer/vegaview.ts:363-368 | the item filter keeps items in their original order, adds none, and keeps exactly those whose row passes the dimension check |
| Brushing.BrushedDimensionsDecide | client/src/components/vega-viewer/vegaview.ts:357-397 | checking only the brushed dimensions decides the reference predicate: every dataset column named in the brush holds a cell in its range |
| Brushing.GetItemsInBrush | client/src/components/vega-viewer/vegaview.ts:354-371 | the result is a subsequence of the candidate items, and an item is kept iff every dataset column named in the brush holds an in-range cell in its row (ANDed across columns) |
| Brushing.FilterKeepsAllPassing | client/src/components/vega-viewer/vegaview.ts:363-368 | when every candidate passes, the filter returns the candidates unchanged |
| Brushing.UnmatchedBrushKeepsAll | client/src/components/vega-viewer/vegaview.ts:358-368 | a brush none of whose keys names a dataset column (the empty brush included) keeps every candidate |
| Brushing.InvertedRangeKeepsNone | client/src/components/vega-viewer/vegaview.ts:388-393 | a brushed column whose range has min > max keeps no item |
| Brushing.CarsExample | client/src/components/vega-viewer/vegaview.ts:354-397 | on a three-row cars table with horsepower 100, 200 and 150, a horsepower brush [120, 180] keeps only the third item, and the unbrushed cylinders column plays no part |
| VegaView.CoverText | client/src/components/vega-viewer/vegaview.ts:135-147 | the cover asks for a spec iff the spec is falsy, says "No dataset" iff there is a spec but no dataset, and is empty iff both are present |
| VegaView.Initial | client/src/components/vega-viewer/vegaview.ts:72-84 | a new node holds exactly the example spec (a truthy spec) and, as its spec text, that spec's two-space-indented JSON text (the `{}` fallback applies only to a falsy spec); no x, y or colour column, an empty selection, an empty view list and selected view index 0 |
| VegaView.Draw | client/src/components/vega-viewer/vegaview.ts:135-152 | drawing sets the cover text by the cover-text decision; without a spec or without a dataset, or when the render path throws, nothing else changes; with both and a successful rendering: the view list becomes the ids of the spec's flat view hierarchy, the spec text becomes the compiled root spec's text, and the spec becomes the compiled root spec, or the selected view's compiled spec when that view exists and the side panel is open; columns, input, selection and selected index never change, and a spec stays a spec |
| VegaView.SetColumn | client/src/components/vega-viewer/vegaview.ts:88-107 | each setter stores its column and leaves the other two columns alone; the cover text is redrawn only when drawing is asked for; unless that draw renders successfully, every other field is left alone, and when it does the spec, its text and the view list come from rendering the state with the new column |
| VegaView.IndicesWhereEnumerates | client/src/components/vega-viewer/vegaview.ts:159-167 | filtering the columns by numerical type and taking their indices gives, in increasing order, exactly the positions whose type does (or does not) test numerical |
| VegaView.ChooseColumns | client/src/components/vega-viewer/vegaview.ts:158-183 | a set column (truthy, so never 0) is carried over by the remapping; an unset x takes the first numerical column, an unset y takes the second numerical column when x was unset, otherwise the first, even if that is x's own column; an unset colour the first non-numerical column, or undefined when there is none |
| VegaView.FindDefaultColumns | client/src/components/vega-viewer/vegaview.ts:154-186 | nothing changes without a dataset; with one, the result holds exactly the chosen columns and is the state with those columns stored without drawing, then drawn once, so its cover text is the cover-text decision |
| VegaView.DefaultXWhenUnset | client/src/components/vega-viewer/vegaview.ts:159-173 | on a well-formed dataset an unset x (null, undefined or column 0) becomes the first numerical column, and stays unset exactly when the dataset has no numerical column |
| VegaView.DefaultYWhenUnset | client/src/components/vega-viewer/vegaview.ts:159-178 | with x and y both unset, y becomes the first numerical column after the one x took, and stays unset exactly when x found none or no numerical column follows it |
| VegaView.DefaultColorWhenUnset | client/src/components/vega-viewer/vegaview.ts:164-183 | an unset colour becomes the first non-numerical column, and stays unset exactly when the dataset has none |
| VegaView.ApplyColumns | client/src/components/vega-viewer/vegaview.ts:109-121 | no column gives the default assignment; one column c sets x = y = c; two or more set x and y from the first two and ignore the rest; colour is untouched unless the defaults apply; when the draw after setting x throws, the rest is abandoned and y keeps its old value; the cover text is the cover-text decision; without a spec or a dataset only columns and cover text change, and otherwise only those and the three fields rendering replaces |
| VegaView.OnViewBrushed | client/src/components/vega-viewer/vegaview.ts:329-345 | with a dataset, the selection is replaced by exactly the indices of the input items inside the brush, in input order, and earlier contents are discarded; without a dataset nothing changes; nothing else ever changes |
| VegaView.Record | client/src/components/vega-viewer/vegaview.ts:420-428 | the record built for a row has exactly the dataset's column names as keys |
| VegaView.RecordHoldsCell | client/src/components/vega-viewer/vegaview.ts:423-425 | a column whose name no later column repeats maps, in the record, to the row's cell at that column's index |
| VegaView.SelectedRows | client/src/components/vega-viewer/vegaview.ts:404-417 | the kept rows are, in increasing row order, exactly the dataset rows whose index is among the package's item indices |
| VegaView.GetTransposedDataset | client/src/components/vega-viewer/vegaview.ts:403-431 | without a dataset the result is empty; otherwise there is one record per kept row, in dataset row order, each built from that row |
| VegaView.TransposedRecordPerItem | client/src/components/vega-viewer/vegaview.ts:403-431 | for a well-formed package (distinct item indices, all in range) the result has one record per item |
| VegaView.OnInputSpecChanged | client/src/components/vega-viewer/vegaview.ts:450-465 | a parse failure only shows the error and keeps the last good spec and its text; a falsy value changes nothing; any other value replaces the spec and its text, and without a dataset that is all; with a dataset the default columns are recomputed and the closing draw renders, so the node ends up with the compiled spec and its text rather than the typed ones |
| VegaView.GetVegaNameForColumnType | client/src/components/vega-viewer/vegaview.ts:305-321 | the map is total with three outcomes: "temporal" iff the type is a date, "quantitative" iff it is an integer or float, and "nominal" iff it is a string, empty or error type |
| VegaView.OnSelectedViewChanged | client/src/components/vega-viewer/vegaview.ts:467-470 | the selected index is the first position of the chosen name among the spec's views, or -1 iff the name is absent; nothing else changes |
| VegaHistory.TypeName | client/src/components/vega-viewer/history.ts:4-7 | exactly two event types exist, carrying the values "setXColumn" and "setYColumn" |
| VegaHistory.SelectXColumnEvent | client/src/components/vega-viewer/history.ts:9-19 | the event has type "setXColumn", label "select X column" and the x setter, and forwards the new and then the previous column unchanged, either possibly null |
| VegaHistory.SelectYColumnEvent | client/src/components/vega-viewer/history.ts:21-31 | the event has type "setYColumn", label "select Y column" and the y setter, and forwards the new and then the previous column unchanged, either possibly null |
| VegaHistory.NoColorEvent | client/src/components/vega-viewer/history.ts:4-31 | no event either constructor builds binds the colour setter, and an event's type is the X type exactly when its setter is the x setter |
| VegaHistory.OnSelectXColumn | client/src/components/vega-viewer/vegaview.ts:435-438 | commits an X event carrying the new and the previous column, and the column its setter reads afterwards is the new one; y and colour are unchanged; apart from the draw's fields nothing else changes; re-applying the recorded event, with the same rendering, reproduces the handler's state |
| VegaHistory.OnSelectYColumn | client/src/components/vega-viewer/vegaview.ts:440-443 | commits a Y event carrying the new and the previous column, and the column its setter reads afterwards is the new one; x and colour are unchanged; apart from the draw's fields nothing else changes; re-applying the recorded event, with the same rendering, reproduces the handler's state |
| VegaHistory.OnSelectColorColumn | client/src/components/vega-viewer/vegaview.ts:445-448 | commits a Y-column event (type setYColumn, setter setYColumn) while the state change is to the colour column; x and y are unchanged; re-applying the recorded event, with the same rendering, reproduces the handler's state exactly when y and colour already both held that column |
| SocketConnector.Initial | client/src/components/vega-viewer/socketConnector.ts:4-5 | a new connector has exactly version -1 and no subscriber |
| SocketConnector.NotifyAll | client/src/components/vega-viewer/socketConnector.ts:22 | each callback is invoked once with the spec, in subscription order |
| SocketConnector.OnSpecChangedRemotely | client/src/components/vega-viewer/socketConnector.ts:16-23 | a message older than the current version changes nothing and invokes nothing; any other message, an equal version included, becomes the current version and invokes every callback once in order; the version never drops |
| SocketConnector.Subscribe | client/src/components/vega-viewer/socketConnector.ts:25-27 | subscribing appends exactly the one callback and changes nothing else |
| SocketConnector.PublishNewSpec | client/src/components/vega-viewer/socketConnector.ts:29-31 | publishing broadcasts the spec tagged with the current version and leaves the connector as it is |
| SocketConnector.MaxVersion | client/src/components/vega-viewer/socketConnector.ts:16-20 | reference definition: the largest received version, bounded below by the start value and attained by the start value or by one of the messages |
| SocketConnector.RunVersionIsMax | client/src/components/vega-viewer/socketConnector.ts:16-21 | after any event sequence, the current version is the larger of the start version and the highest version received |
| SocketConnector.VersionMonotone | client/src/components/vega-viewer/socketConnector.ts:16-21 | over any event sequence the current version never decreases |
| SocketConnector.PrefixVersionsGrow | client/src/components/vega-viewer/socketConnector.ts:16-21 | along the prefixes of one event sequence the current version only grows |
| SocketConnector.CallbacksOnlyGrow | client/src/components/vega-viewer/socketConnector.ts:25-27 | over any event sequence the subscriber list only grows, keeping its starting list as a prefix |
| SocketConnector.PublishCarriesLatestVersion | client/src/components/vega-viewer/socketConnector.ts:16-31 | a publish after any event sequence is tagged with the highest version accepted so far |
| DataSource.FetchDataset | client/src/components/data-source/data-source.ts:75-89 | with no dataset info, nothing is issued and nothing changes; otherwise exactly one request is issued, keyed by (username, filename), and the state waits for it |
| DataSource.SetDatasetInfo | client/src/components/data-source/data-source.ts:37-45 | records the info; without info the output becomes an empty package and exactly one port update is announced, with no request; with info one request is issued and the output is untouched |
| DataSource.Update | client/src/components/data-source/data-source.ts:47-50 | update is a no-op: no state change, no effect |
| DataSource.OnFetchResolved | client/src/components/data-source/data-source.ts:83-88 | a resolution whose text parses sets the output to a package of the parsed dataset and announces exactly one port update; text that does not parse goes to the error handler exactly as a rejection does; the chosen info is kept either way |
| DataSource.OnFetchRejected | client/src/components/data-source/data-source.ts:88 | a rejection leaves the state, the output included, unchanged and only reports a system message |
| DataSource.Serialize | client/src/components/data-source/data-source.ts:53-55 | the save holds exactly the node's dataset info |
| DataSource.OnDeserialized | client/src/components/data-source/data-source.ts:56-60 | the deserialization step issues one request iff dataset info is set, and changes no state |
| DataSource.Deserialize | client/src/components/data-source/data-source.ts:56-60 | restoring a save: once its dataset info is back in place (done by the base node first), the chain entry requests that dataset iff the info is set; nothing else changes |
| DataSource.SaveRoundTrip | client/src/components/data-source/data-source.ts:53-60 | restoring a save brings the dataset info back and re-requests that dataset iff there is one; the output is not touched until the request settles |
| DataSource.OnSelectDataset | client/src/components/data-source/data-source.ts:91-94 | selecting commits exactly one history event carrying (new info, previous info) and then issues the request for the new dataset |
| DataSource.StepAnnouncesWrites | client/src/components/data-source/data-source.ts:37-94 | every transition announces a port update iff it writes the output (a resolution whose text parses, or clearing the choice); every other transition leaves the output as it was |
| DataSource.PortUpdatesMatchWrites | client/src/components/data-source/data-source.ts:37-94 | over any event sequence, the number of port updates equals the number of output writes |
| DataSource.OutputKeptWithoutWrites | client/src/components/data-source/data-source.ts:37-94 | an event sequence with no parsing resolution and no clearing leaves the output package unchanged |
| DataSource.LastResolutionWins | client/src/components/data-source/data-source.ts:80-88 | whatever came before, a resolution whose text parses writes its dataset to the output, since nothing checks that it answers the latest request; one whose text does not parse leaves the output as the earlier events left it |
| DataSource.StaleResolutionOverwrites | client/src/components/data-source/data-source.ts:80-94 | when both answers parse, choosing A, then B, then receiving B's answer before A's leaves B chosen but A's data on the port, with two history events, two requests and two port updates |

## Left out

- The insides of rendering: parsing the spec into views, compiling them,
  embedding, removing `data.format`, the delayed draw in `created` and the
  signal listeners. These are calls into the Vega-Lite and spec-compiler
  libraries. Also `applyColumnsToView` (vegaview.ts:276-299), the node's own
  code, which looks the chosen columns up with the dataset's `getColumn`, whose
  code is not part of this model, and reads their types. Their outcome is the
  `render` parameter. `Draw`
  models what `updateViewList`, `renderView`, `renderRootView` and
  `renderSelectedView` (vegaview.ts:188-271) do with it. With a spec and a
  dataset they replace the view list, the spec text and the spec.
- VegaView.Draw: whether the render path throws, for example when
  `applyColumnsToView` reads the type of an unset or out-of-range column, is
  left to `render` (a `None` result), because it depends on `getColumn`. A
  throw is assumed to happen before any field is written, so a failure while
  compiling the selected view after the root view was rendered is not
  modelled. The exception itself is not an output: callers see only that the
  draw stopped with the cover text cleared. Draw assumes the spec parser
  always returns a root view (the `!this.rootView` branches are not modelled). It also assumes compiling the
  root view twice gives the same spec, so selecting the root view in the side
  panel leaves the root's spec text.
- VegaView.SetColumn, VegaView.FindDefaultColumns, VegaView.ApplyColumns and the
  VegaHistory handlers: their frames cover spec, spec text and view list only
  when the draw does not render. When it renders, those three fields come from
  `render`.
- VegaView.ApplyColumns: a draw that throws ends it. After a throw in the first
  setter's draw, y keeps its old value. After a throw in the second, y is set
  but the closing draw does not run. The contract states the first case
  explicitly. With one or more columns and a spec and a dataset, it renders up
  to three times: after each setter and at the end. The contract says which
  fields may change. It does not say which rendering's spec is kept.
- VegaView.OnInputSpecChanged: the typed spec and its text stay in the node only
  when there is no dataset. With a dataset the contract says they are replaced
  by the draw of the typed spec under the recomputed columns.
- VegaView.Initial: the input package, the empty selection and the cover text
  come from the base node class, which is not part of this model. The input is
  a parameter, the selection is taken as empty, and the cover text is taken as
  empty and not promised. The example spec is held as its JSON text. Its
  stringification is written out as a constant, not computed.
- `hasDataset()` and `getDataset()` belong to the base node class, which is not
  part of this model. They are taken to be the input package's dataset. That
  is the one `onViewBrushed` reads directly (vegaview.ts:334), and the package
  `getTransposedDataset` takes its item indices from (vegaview.ts:405).
- `computeSelection` and `propagateSelection` around `onViewBrushed`. They are
  scheduling and selection plumbing whose code is not part of this model.
- Helpers whose code is not part of this model. `isNumericalType`,
  `updateColumnOnDatasetChange`, `parseCsv` and `JSON.parse` are parameters, as
  described above. `SubsetPackage`, `portUpdated`, `commitHistory`,
  `nodeOptionEvent` and `systemMessageErrorHandler` become data or effects.
  Undo and redo of the recorded events are not modelled.
- Socket connection setup and the transport (`connect`, the library's
  subscribe and broadcast calls). Only the version gate is modelled. Callbacks
  are identifiers, and invoking one is an output.
- The request's network round trip. Resolution and rejection are events that
  may arrive in any order.
- SocketConnector.NotifyAll: callbacks are assumed to return normally. In the
  code, a callback that throws ends the `forEach`, so later subscribers are not
  called.
- DataSource.OnFetchResolved: `parseCsv` throwing is modelled as a failed
  `parse`. It takes the rejection path: one system message, output kept.
  `new SubsetPackage` and `portUpdated` are assumed not to throw.
- DataSource.StaleResolutionOverwrites: requires both fetched texts to parse.
  The scenario is about two successful answers. A failed parse is covered by
  `DataSource.LastResolutionWins`.
- DataSource.Deserialize: assumes the base node's deserialization, which is not
  part of this model, has written `datasetInfo` back before the chain entry at
  data-source.ts:56-60 runs. That entry itself only reads the field.
- `console.error` in `fetchDataset`, which is only logging.
- Comparison of string cells with numeric brush bounds, which the code marks as
  unsupported. Brushing requires every brushed cell to be a number
  (`Brushing.Brushable`), and numbers are `real` with comparisons only.
- Brushing.GetItemsInBrush: requires each item index to name a dataset row and
  each brushed cell to be a number. The code would read `undefined` or compare
  mixed types there.
- VegaView.OnViewBrushed: requires a well-formed package and a brushable
  dataset. It inherits the reasons of `GetItemsInBrush`.
- VegaView.GetTransposedDataset: requires a well-formed dataset, meaning every
  row has a cell for each column index. Otherwise the code would store
  `undefined`.
- VegaView.Record: states its keys in its contract. The cell stored under a key
  is stated separately (`VegaView.RecordHoldsCell`), and only for names no
  later column repeats, since a repeated name keeps the last column's cell.
- The lexicographic order of the JavaScript `.sort()` on item indices in
  `getTransposedDataset`. It only feeds an `indexOf` membership test, so it
  cannot affect the result.
- Pixel sizes, node type names and default dimensions of the nodes.
- `DataSource.DatasetInfo` keeps only the file name the node uses, plus one
  opaque description field.

=== FILE: brushing.dfy ===
/** Brush selection of the Vega view node: keeping the candidate items whose
    row lies inside a per-column inclusive numeric range. */
module Brushing {
  import opened Tabular
  import opened Sequences

  /** The interval a brush spans on one dimension, inclusive at both ends. */
  datatype Range = Range(min: real, max: real)

  /** The brush signal: dimension name to the interval brushed on it. */
  type Brush = map<string, Range>

  /** Brushing only ever looks at numeric cells: every cell under a brushed
      column of a well-formed dataset is a number. */
  predicate Brushable(d: Dataset, brush: Brush) {
    && WellFormed(d)
    && forall r: Row, k: int :: r in d.rows && 0 <= k < |r| && k < |d.columns| && d.columns[k].name in brush ==> r[k].Num?
  }

  /** The cell of `row` under column `c` can be compared against the brush. */
  predicate Readable(row: Row, c: Column, brush: Brush) {
    c.name in brush && c.index < |row| && row[c.index].Num?
  }

  /** The cell of `row` under column `c` lies in the brushed interval, ends included. */
  predicate InRange(row: Row, c: Column, brush: Brush)
    requires Readable(row, c, brush)
  {
    brush[c.name].min <= row[c.index].n <= brush[c.name].max
  }

  /** Reference meaning of "row inside the brush": every dataset column that a
      brush key names holds an in-range cell; other keys and columns are free. */
  predicate RowInBrush(d: Dataset, row: Row, brush: Brush)
    requires Brushable(d, brush) && row in d.rows
  {
    forall k :: 0 <= k < |d.columns| && d.columns[k].name in brush ==> InRange(row, d.columns[k], brush)
  }

  /** Every item names an existing row. */
  predicate ItemsInDataset(d: Dataset, items: seq<Item>) {
    forall k :: 0 <= k < |items| ==> items[k].index < |d.rows|
  }

  /** The dataset columns whose name is a brush key, in column order. */
  function BrushedDimensions(columns: seq<Column>, brush: Brush): (dims: seq<Column>)
    ensures Subsequence(dims, columns)
    ensures forall c :: c in dims <==> c in columns && c.name in brush
  {
    if |columns| == 0 then []
    else
      var rest := BrushedDimensions(columns[1..], brush);
      if columns[0].name in brush then [columns[0]] + rest else rest
  }

  predicate DimsReadable(row: Row, dims: seq<Column>, brush: Brush) {
    forall k :: 0 <= k < |dims| ==> Readable(row, dims[k], brush)
  }

  /** The per-dimension walk with a running flag: once the flag drops, the
      remaining dimensions are skipped; otherwise the cell is compared with the lower
      and then the upper bound. */
  function ScanDims(row: Row, dims: seq<Column>, brush: Brush, inBrush: bool): (r: bool)
    requires DimsReadable(row, dims, brush)
    ensures r <==> inBrush && forall k :: 0 <= k < |dims| ==> InRange(row, dims[k], brush)
  {
    if |dims| == 0 then inBrush
    else if !inBrush then ScanDims(row, dims[1..], brush, inBrush)
    else
      var dim := dims[0];
      var cell := row[dim.index].n;
      var aboveMin := inBrush && cell >= brush[dim.name].min;
      var belowMax := aboveMin && cell <= brush[dim.name].max;
      ScanDims(row, dims[1..], brush, belowMax)
  }

  /** Whether a row sits inside the brush on all the given dimensions. */
  function IsItemInBrush(row: Row, dims: seq<Column>, brush: Brush): (r: bool)
    requires DimsReadable(row, dims, brush)
    ensures r <==> forall k :: 0 <= k < |dims| ==> InRange(row, dims[k], brush)
  {
    ScanDims(row, dims, brush, true)
  }

  /** The candidate items whose rows are in the brush on `dims`, in item order.
      The contract pins the result down for repeat-free candidates, as a
      package's items (distinct indices) are; with a repeated candidate it does
      not say how many copies are kept. */
  function FilterInBrush(d: Dataset, items: seq<Item>, dims: seq<Column>, brush: Brush): (r: seq<Item>)
    requires ItemsInDataset(d, items)
    requires forall row :: row in d.rows ==> DimsReadable(row, dims, brush)
    ensures Subsequence(r, items)
    ensures forall it :: it in r <==> it in items && IsItemInBrush(d.rows[it.index], dims, brush)
  {
    if |items| == 0 then []
    else
      var rest := FilterInBrush(d, items[1..], dims, brush);
      assert forall it :: it in items[1..] ==> it in items;
      if IsItemInBrush(d.rows[items[0].index], dims, brush) then [items[0]] + rest else rest
  }

  /** Every row of a brushable dataset can be compared on its brushed dimensions. */
  lemma BrushedDimensionsReadable(d: Dataset, brush: Brush, row: Row)
    requires Brushable(d, brush) && row in d.rows
    ensures DimsReadable(row, BrushedDimensions(d.columns, brush), brush)
  {
    var dims := BrushedDimensions(d.columns, brush);
    forall k | 0 <= k < |dims| ensures Readable(row, dims[k], brush) {
      assert dims[k] in dims;
      var p :| 0 <= p < |d.columns| && d.columns[p] == dims[k];
    }
  }

  /** Testing the brushed dimensions decides exactly the reference meaning. */
  lemma BrushedDimensionsDecide(d: Dataset, brush: Brush, row: Row)
    requires Brushable(d, brush) && row in d.rows
    ensures DimsReadable(row, BrushedDimensions(d.columns, brush), brush)
    ensures IsItemInBrush(row, BrushedDimensions(d.columns, brush), brush) <==> RowInBrush(d, row, brush)
  {
    var dims := BrushedDimensions(d.columns, brush);
    BrushedDimensionsReadable(d, brush, row);
    if IsItemInBrush(row, dims, brush) {
      forall k | 0 <= k < |d.columns| && d.columns[k].name in brush
        ensures InRange(row, d.columns[k], brush)
      {
        assert d.columns[k] in dims;
        var j :| 0 <= j < |dims| && dims[j] == d.columns[k];
      }
    }
    if RowInBrush(d, row, brush) {
      forall k | 0 <= k < |dims| ensures InRange(row, dims[k], brush) {
        assert dims[k] in dims;
        var p :| 0 <= p < |d.columns| && d.columns[p] == dims[k];
      }
    }
  }

  /** `getItemsInBrush`: the candidates inside the brush, as a subsequence of
      the candidates: nothing is added and the order is kept. For repeat-free
      candidates, such as a well-formed package's items, this fixes the result. */
  function GetItemsInBrush(d: Dataset, items: seq<Item>, brush: Brush): (r: seq<Item>)
    requires Brushable(d, brush) && ItemsInDataset(d, items)
    ensures Subsequence(r, items)
    ensures forall it :: it in r <==> it in items && RowInBrush(d, d.rows[it.index], brush)
  {
    var dims := BrushedDimensions(d.columns, brush);
    assert forall row :: row in d.rows ==> DimsReadable(row, dims, brush) by {
      forall row | row in d.rows ensures DimsReadable(row, dims, brush) {
        BrushedDimensionsReadable(d, brush, row);
      }
    }
    var r := FilterInBrush(d, items, dims, brush);
    assert forall it :: it in items ==> (IsItemInBrush(d.rows[it.index], dims, brush) <==> RowInBrush(d, d.rows[it.index], brush)) by {
      forall it | it in items
        ensures IsItemInBrush(d.rows[it.index], dims, brush) <==> RowInBrush(d, d.rows[it.index], brush)
      {
        BrushedDimensionsDecide(d, brush, d.rows[it.index]);
      }
    }
    r
  }

  /** A filter whose every candidate passes returns the candidates unchanged. */
  lemma {:induction false} FilterKeepsAllPassing(d: Dataset, items: seq<Item>, dims: seq<Column>, brush: Brush)
    requires ItemsInDataset(d, items)
    requires forall row :: row in d.rows ==> DimsReadable(row, dims, brush)
    requires forall it :: it in items ==> IsItemInBrush(d.rows[it.index], dims, brush)
    ensures FilterInBrush(d, items, dims, brush) == items
  {
    if |items| > 0 {
      assert items[0] in items;
      assert forall it :: it in items[1..] ==> it in items;
      FilterKeepsAllPassing(d, items[1..], dims, brush);
      assert items == [items[0]] + items[1..];
    }
  }

  /** Brush keys that name no dataset column are ignored: when no key names a
      column (in particular for an empty brush) every candidate is kept. */
  lemma UnmatchedBrushKeepsAll(d: Dataset, items: seq<Item>, brush: Brush)
    requires Brushable(d, brush) && ItemsInDataset(d, items)
    requires forall k :: 0 <= k < |d.columns| ==> d.columns[k].name !in brush
    ensures GetItemsInBrush(d, items, brush) == items
  {
    var dims := BrushedDimensions(d.columns, brush);
    FilterKeepsAllPassing(d, items, dims, brush);
  }

  /** A brushed column whose interval is empty (min > max) keeps no candidate. */
  lemma InvertedRangeKeepsNone(d: Dataset, items: seq<Item>, brush: Brush, k: nat)
    requires Brushable(d, brush) && ItemsInDataset(d, items)
    requires k < |d.columns| && d.columns[k].name in brush
    requires brush[d.columns[k].name].min > brush[d.columns[k].name].max
    ensures GetItemsInBrush(d, items, brush) == []
  {
    var r := GetItemsInBrush(d, items, brush);
    assert forall j :: 0 <= j < |r| ==> r[j] in r;
  }

  /** Cars with (Horsepower, Cylinders) = (100, 4), (200, 6), (150, 4). */
  const Cars := Dataset("cars",
                        [Column(0, "Horsepower", Float, false), Column(1, "Cylinders", Int, true)],
                        [[Num(100.0), Num(4.0)], [Num(200.0), Num(6.0)], [Num(150.0), Num(4.0)]])

  const HorsepowerBrush: Brush := map["Horsepower" := Range(120.0, 180.0)]

  /** The cars table can be brushed on Horsepower and holds three rows. */
  lemma CarsBrushable()
    ensures Brushable(Cars, HorsepowerBrush)
    ensures |Cars.rows| == 3
  {
    assert "Cylinders" != "Horsepower";
  }

  /** On the cars table only Horsepower is brushed, and only the third row
      lies in 120..180. */
  lemma CarsRowsInBrush()
    ensures Brushable(Cars, HorsepowerBrush)
    ensures BrushedDimensions(Cars.columns, HorsepowerBrush) == [Cars.columns[0]]
    ensures forall row :: row in Cars.rows ==> DimsReadable(row, [Cars.columns[0]], HorsepowerBrush)
    ensures !IsItemInBrush(Cars.rows[0], [Cars.columns[0]], HorsepowerBrush)
    ensures !IsItemInBrush(Cars.rows[1], [Cars.columns[0]], HorsepowerBrush)
    ensures IsItemInBrush(Cars.rows[2], [Cars.columns[0]], HorsepowerBrush)
  {
    CarsBrushable();
  }

  /** On the last two cars the Horsepower filter keeps only the third. */
  lemma CarsFilterTail(v1: map<string, string>, v2: map<string, string>)
    ensures forall row :: row in Cars.rows ==> DimsReadable(row, [Cars.columns[0]], HorsepowerBrush)
    ensures ItemsInDataset(Cars, [Item(1, v1), Item(2, v2)])
    ensures FilterInBrush(Cars, [Item(1, v1), Item(2, v2)], [Cars.columns[0]], HorsepowerBrush) == [Item(2, v2)]
  {
    CarsRowsInBrush();
    var d, brush, dims := Cars, HorsepowerBrush, [Cars.columns[0]];
    var i1, i2 := Item(1, v1), Item(2, v2);
    assert [i2][1..] == [];
    assert FilterInBrush(d, [i2], dims, brush) == [i2];
    assert [i1, i2][1..] == [i2];
  }

  /** Brushing Horsepower over 120..180 selects only the third car, with its
      visual overrides. */
  lemma CarsExample(v0: map<string, string>, v1: map<string, string>, v2: map<string, string>)
    ensures Brushable(Cars, HorsepowerBrush) && ItemsInDataset(Cars, [Item(0, v0), Item(1, v1), Item(2, v2)])
    ensures GetItemsInBrush(Cars, [Item(0, v0), Item(1, v1), Item(2, v2)], HorsepowerBrush) == [Item(2, v2)]
  {
    CarsRowsInBrush();
    CarsFilterTail(v1, v2);
    var items := [Item(0, v0), Item(1, v1), Item(2, v2)];
    assert items[1..] == [Item(1, v1), Item(2, v2)];
    assert FilterInBrush(Cars, items, [Cars.columns[0]], HorsepowerBrush) == [Item(2, v2)];
  }
}

=== FILE: data_source.dfy ===
/** The data-source node as a state machine. Fetching is split into the
    request the node issues (an effect) and its later resolution or rejection
    (events); resolutions are applied in arrival order with no check that they
    answer the latest request. Parsing the fetched text is the parameter
    `parse`; a parse that fails ends, like a failed request, in the error
    handler. */
module DataSource {
  import opened Options
  import opened Tabular

  /** The chosen dataset; only its file name matters to the node. */
  datatype DatasetInfo = DatasetInfo(filename: string, description: string)

  /** What the output port holds: an empty package, or a package built from a
      dataset. */
  datatype OutPackage = EmptyPackage | DatasetPackage(dataset: Dataset)

  /** A request for a dataset's raw text, keyed by owner and file name. */
  datatype Request = Request(username: string, filename: string)

  /** The history event committed when the user picks a dataset. */
  datatype HistoryEvent = SetDatasetInfoEvent(info: Option<DatasetInfo>, prevInfo: Option<DatasetInfo>)

  /** What a transition does to the outside world. */
  datatype Effect =
    | PortUpdated
    | IssueRequest(request: Request)
    | SystemMessage(error: string)
    | CommitHistory(event: HistoryEvent)

  datatype Source = Source(username: string, info: Option<DatasetInfo>, out: OutPackage)

  /** Parsing fetched CSV text into a dataset, which may fail. */
  type Parser = string -> Result<Dataset, string>

  /** The node's slice of a saved diagram. */
  datatype Save = Save(datasetInfo: Option<DatasetInfo>)

  /** The request for the chosen dataset. */
  function RequestFor(s: Source): Request
    requires s.info.Some?
  {
    Request(s.username, s.info.value.filename)
  }

  /** `fetchDataset`: without a chosen dataset nothing happens; otherwise one
      request is issued and the state is left as it is until it settles. */
  function FetchDataset(s: Source): (r: (Source, seq<Effect>))
    ensures r.0 == s
    ensures s.info.None? ==> r.1 == []
    ensures s.info.Some? ==> r.1 == [IssueRequest(Request(s.username, s.info.value.filename))]
  {
    if s.info.None? then (s, [])
    else (s, [IssueRequest(RequestFor(s))])
  }

  /** `setDatasetInfo`: record the choice; with a dataset fetch it, without one
      empty the output and announce it once. */
  function SetDatasetInfo(s: Source, info: Option<DatasetInfo>): (r: (Source, seq<Effect>))
    ensures r.0.info == info && r.0.username == s.username
    ensures info.None? ==> r.0.out == EmptyPackage && r.1 == [PortUpdated]
    ensures info.Some? ==> r.0.out == s.out && r.1 == [IssueRequest(Request(s.username, info.value.filename))]
  {
    var recorded := s.(info := info);
    if recorded.info.Some? then FetchDataset(recorded)
    else (recorded.(out := EmptyPackage), [PortUpdated])
  }

  /** `update`: a data source only emits on explicit user action. */
  function Update(s: Source): (r: (Source, seq<Effect>))
    ensures r.0 == s && r.1 == []
  {
    (s, [])
  }

  /** A request failed: only a system message; the output is kept. */
  function OnFetchRejected(s: Source, error: string): (r: (Source, seq<Effect>))
    ensures r.0 == s && r.1 == [SystemMessage(error)]
  {
    (s, [SystemMessage(error)])
  }

  /** A request succeeded: the output becomes a package of the parsed text,
      then the port update is announced. Text that does not parse is handled
      like a failed request. */
  function OnFetchResolved(s: Source, text: string, parse: Parser): (r: (Source, seq<Effect>))
    ensures r.0.info == s.info && r.0.username == s.username
    ensures parse(text).Success? ==> r.0.out == DatasetPackage(parse(text).value) && r.1 == [PortUpdated]
    ensures parse(text).Failure? ==> r == OnFetchRejected(s, parse(text).error)
  {
    match parse(text)
    case Success(dataset) => (s.(out := DatasetPackage(dataset)), [PortUpdated])
    case Failure(error) => OnFetchRejected(s, error)
  }

  /** The node's serialization-chain entry. */
  function Serialize(s: Source): (save: Save)
    ensures save.datasetInfo == s.info
  {
    Save(s.info)
  }

  /** The node's deserialization-chain entry, run once the saved fields are back
      in place: re-fetch the chosen dataset, if any. */
  function OnDeserialized(s: Source): (r: (Source, seq<Effect>))
    ensures r.0 == s
    ensures |r.1| <= 1 && (|r.1| == 1 <==> s.info.Some?)
    ensures s.info.Some? ==> r.1 == [IssueRequest(RequestFor(s))]
  {
    if s.info.Some? then FetchDataset(s) else (s, [])
  }

  /** Restoring a save: the base node writes its dataset info back first, then
      the chain entry runs. */
  function Deserialize(s: Source, save: Save): (r: (Source, seq<Effect>))
    ensures r.0 == s.(info := save.datasetInfo)
    ensures save.datasetInfo.None? ==> r.1 == []
    ensures save.datasetInfo.Some? ==> r.1 == [IssueRequest(Request(s.username, save.datasetInfo.value.filename))]
  {
    OnDeserialized(s.(info := save.datasetInfo))
  }

  /** Saving then restoring brings the choice back and re-issues a request for
      it exactly when there is one; the output waits for that request. */
  lemma SaveRoundTrip(s: Source, target: Source)
    ensures Deserialize(target, Serialize(s)).0 == target.(info := s.info)
    ensures s.info.None? ==> Deserialize(target, Serialize(s)).1 == []
    ensures s.info.Some? ==>
              Deserialize(target, Serialize(s)).1 == [IssueRequest(Request(target.username, s.info.value.filename))]
  {
  }

  /** `onSelectDataset`: commit one history event carrying the new and the
      previous choice, then apply the choice. */
  function OnSelectDataset(s: Source, info: DatasetInfo): (r: (Source, seq<Effect>))
    ensures r.1 == [CommitHistory(SetDatasetInfoEvent(Some(info), s.info)),
                    IssueRequest(Request(s.username, info.filename))]
    ensures r.0 == s.(info := Some(info))
  {
    var (s', effects) := SetDatasetInfo(s, Some(info));
    (s', [CommitHistory(SetDatasetInfoEvent(Some(info), s.info))] + effects)
  }

  /** Everything that can happen to a data source. */
  datatype Event =
    | SelectDataset(info: DatasetInfo)
    | SetInfo(newInfo: Option<DatasetInfo>)
    | UpdateRequested
    | FetchResolved(text: string)
    | FetchRejected(error: string)
    | Restore(save: Save)

  function Step(s: Source, e: Event, parse: Parser): (Source, seq<Effect>) {
    match e
    case SelectDataset(info) => OnSelectDataset(s, info)
    case SetInfo(info) => SetDatasetInfo(s, info)
    case UpdateRequested => Update(s)
    case FetchResolved(text) => OnFetchResolved(s, text, parse)
    case FetchRejected(error) => OnFetchRejected(s, error)
    case Restore(save) => Deserialize(s, save)
  }

  /** Run a sequence of events in arrival order, collecting the effects. */
  function Run(s: Source, events: seq<Event>, parse: Parser): (Source, seq<Effect>)
    decreases |events|
  {
    if |events| == 0 then (s, [])
    else
      var (s1, effects1) := Step(s, events[0], parse);
      var (s2, effects2) := Run(s1, events[1..], parse);
      (s2, effects1 + effects2)
  }

  /** Only a resolution whose text parses, or clearing the choice, writes the
      output port. */
  predicate WritesOutput(e: Event, parse: Parser) {
    (e.FetchResolved? && parse(e.text).Success?) || e == SetInfo(None)
  }

  /** The number of port-update announcements among some effects. */
  function PortUpdates(effects: seq<Effect>): nat {
    if |effects| == 0 then 0
    else (if effects[0] == PortUpdated then 1 else 0) + PortUpdates(effects[1..])
  }

  /** The number of events that write the output port. */
  function OutputWrites(events: seq<Event>, parse: Parser): nat {
    if |events| == 0 then 0
    else (if WritesOutput(events[0], parse) then 1 else 0) + OutputWrites(events[1..], parse)
  }

  lemma {:induction false} PortUpdatesAppend(a: seq<Effect>, b: seq<Effect>)
    ensures PortUpdates(a + b) == PortUpdates(a) + PortUpdates(b)
    decreases |a|
  {
    if |a| > 0 {
      assert (a + b)[1..] == a[1..] + b;
      PortUpdatesAppend(a[1..], b);
    } else {
      assert a + b == b;
    }
  }

  /** One step announces a port update exactly when it writes the output, and
      an event that does not write the output leaves it as it was. */
  lemma StepAnnouncesWrites(s: Source, e: Event, parse: Parser)
    ensures PortUpdates(Step(s, e, parse).1) == if WritesOutput(e, parse) then 1 else 0
    ensures !WritesOutput(e, parse) ==> Step(s, e, parse).0.out == s.out
  {
    match e
    case SelectDataset(info) =>
      var effects := Step(s, e, parse).1;
      assert effects[1..][1..] == [];
      assert PortUpdates(effects[1..]) == 0;
    case SetInfo(info) =>
    case UpdateRequested =>
    case FetchResolved(text) =>
      var effects := Step(s, e, parse).1;
      assert effects[1..] == [];
    case FetchRejected(error) =>
      var effects := Step(s, e, parse).1;
      assert effects[1..] == [];
    case Restore(save) =>
  }

  /** Over any run, port updates are announced once per output write and never
      otherwise: an update call or a rejected request announces nothing. */
  lemma {:induction false} PortUpdatesMatchWrites(s: Source, events: seq<Event>, parse: Parser)
    ensures PortUpdates(Run(s, events, parse).1) == OutputWrites(events, parse)
    decreases |events|
  {
    if |events| > 0 {
      var (s1, effects1) := Step(s, events[0], parse);
      StepAnnouncesWrites(s, events[0], parse);
      PortUpdatesMatchWrites(s1, events[1..], parse);
      PortUpdatesAppend(effects1, Run(s1, events[1..], parse).1);
    }
  }

  /** Without writes, the output survives any run unchanged. */
  lemma {:induction false} OutputKeptWithoutWrites(s: Source, events: seq<Event>, parse: Parser)
    requires forall k :: 0 <= k < |events| ==> !WritesOutput(events[k], parse)
    ensures Run(s, events, parse).0.out == s.out
    decreases |events|
  {
    if |events| > 0 {
      StepAnnouncesWrites(s, events[0], parse);
      OutputKeptWithoutWrites(Step(s, events[0], parse).0, events[1..], parse);
    }
  }

  /** Running one more event continues from where the run stopped. */
  lemma {:induction false} RunSnoc(s: Source, events: seq<Event>, e: Event, parse: Parser)
    ensures var before := Run(s, events, parse);
            var last := Step(before.0, e, parse);
            Run(s, events + [e], parse) == (last.0, before.1 + last.1)
    decreases |events|
  {
    if |events| > 0 {
      assert (events + [e])[1..] == events[1..] + [e];
      RunSnoc(Step(s, events[0], parse).0, events[1..], e, parse);
      var (s1, effects1) := Step(s, events[0], parse);
      var rest := Run(s1, events[1..], parse);
      var last := Step(rest.0, e, parse);
      assert effects1 + (rest.1 + last.1) == (effects1 + rest.1) + last.1;
    } else {
      assert events + [e] == [e];
      assert [e][1..] == [];
      var last := Step(s, e, parse);
      assert Run(s, [e], parse) == (last.0, last.1 + []);
      assert last.1 + [] == last.1 == [] + last.1;
    }
  }

  /** Whatever happened before, a resolution whose text parses writes its
      dataset: there is no check that it answers the latest request. One whose
      text does not parse leaves the output as the earlier events left it. */
  lemma LastResolutionWins(s: Source, events: seq<Event>, text: string, parse: Parser)
    ensures parse(text).Success? ==>
              Run(s, events + [FetchResolved(text)], parse).0.out == DatasetPackage(parse(text).value)
    ensures parse(text).Failure? ==>
              Run(s, events + [FetchResolved(text)], parse).0.out == Run(s, events, parse).0.out
  {
    RunSnoc(s, events, FetchResolved(text), parse);
  }

  /** Choosing dataset `a`, then `b`, and receiving `b`'s answer before `a`'s
      leaves `b` chosen but `a`'s data on the output port. */
  lemma StaleResolutionOverwrites(s: Source, a: DatasetInfo, b: DatasetInfo, textA: string, textB: string,
                                  parse: Parser)
    requires parse(textA).Success? && parse(textB).Success?
    ensures var r := Run(s, [SelectDataset(a), SelectDataset(b), FetchResolved(textB), FetchResolved(textA)], parse);
            && r.0.info == Some(b)
            && r.0.out == DatasetPackage(parse(textA).value)
            && r.1 == [CommitHistory(SetDatasetInfoEvent(Some(a), s.info)),
                       IssueRequest(Request(s.username, a.filename)),
                       CommitHistory(SetDatasetInfoEvent(Some(b), Some(a))),
                       IssueRequest(Request(s.username, b.filename)),
                       PortUpdated,
                       PortUpdated]
  {
    var e1 := [SelectDataset(a)];
    var e2 := e1 + [SelectDataset(b)];
    var e3 := e2 + [FetchResolved(textB)];
    assert e3 + [FetchResolved(textA)] == [SelectDataset(a), SelectDataset(b), FetchResolved(textB), FetchResolved(textA)];
    RunSnoc(s, [], SelectDataset(a), parse);
    assert [] + [SelectDataset(a)] == e1;
    RunSnoc(s, e1, SelectDataset(b), parse);
    RunSnoc(s, e2, FetchResolved(textB), parse);
    RunSnoc(s, e3, FetchResolved(textA), parse);
  }
}

=== FILE: options.dfy ===
/** Optional values and results, standing in for JavaScript's `null`/`undefined`
    and for operations that may throw. */
module Options {

  /** A value that may be absent (`null` or `undefined` in JavaScript). */
  datatype Option<+T> = None | Some(value: T)

  /** The outcome of an operation that either yields a value or throws with a message. */
  datatype Result<+T, +E> = Success(value: T) | Failure(error: E)

  /** The `k`-th element of `xs`, or `None` past its end (JavaScript's `undefined`). */
  function At<T>(xs: seq<T>, k: nat): (r: Option<T>)
    ensures r.Some? <==> k < |xs|
    ensures r.Some? ==> r.value == xs[k]
  {
    if k < |xs| then Some(xs[k]) else None
  }
}

=== FILE: sequences.dfy ===
/** Facts about sequences shared by the models: subsequences, increasing
    enumerations of index sets and first-occurrence search. */
module Sequences {

  /** `xs` is obtained from `ys` by deleting elements, keeping the order of the rest. */
  ghost predicate Subsequence<T>(xs: seq<T>, ys: seq<T>)
    decreases |ys|
  {
    if |xs| == 0 then true
    else if |ys| == 0 then false
    else (xs[0] == ys[0] && Subsequence(xs[1..], ys[1..])) || Subsequence(xs, ys[1..])
  }

  /** Strictly increasing, hence free of duplicates. */
  predicate Increasing(s: seq<nat>) {
    forall i, j :: 0 <= i < j < |s| ==> s[i] < s[j]
  }

  /** The numbers `lo <= k < hi` that satisfy `p`, in increasing order. */
  function Enumerate(lo: nat, hi: nat, p: nat -> bool): (r: seq<nat>)
    ensures Increasing(r)
    ensures forall k :: k in r <==> lo <= k < hi && p(k)
    decreases hi - lo
  {
    if lo >= hi then []
    else
      var rest := Enumerate(lo + 1, hi, p);
      if p(lo) then
        assert forall j :: 0 <= j < |rest| ==> rest[j] in rest;
        [lo] + rest
      else rest
  }

  /** JavaScript's `indexOf`: the first position of `x` in `xs`, or -1. */
  function IndexOf<T(==)>(xs: seq<T>, x: T): (r: int)
    ensures -1 <= r < |xs|
    ensures r == -1 <==> x !in xs
    ensures r >= 0 ==> xs[r] == x && forall j :: 0 <= j < r ==> xs[j] != x
  {
    if |xs| == 0 then -1
    else if xs[0] == x then 0
    else
      var rest := IndexOf(xs[1..], x);
      if rest == -1 then -1 else rest + 1
  }

  /** A sequence without duplicates has as many distinct elements as positions. */
  lemma {:induction false} DistinctCardinality<T>(s: seq<T>)
    requires forall i, j :: 0 <= i < j < |s| ==> s[i] != s[j]
    ensures |set x | x in s| == |s|
  {
    if |s| > 0 {
      var tail := s[1..];
      DistinctCardinality(tail);
      assert s[0] !in tail by {
        forall j | 0 <= j < |tail| ensures tail[j] != s[0] {
          assert tail[j] == s[j + 1];
        }
      }
      assert (set x | x in s) == {s[0]} + (set x | x in tail);
    }
  }

  /** Two duplicate-free sequences with the same elements have the same length. */
  lemma SameElementsSameLength<T>(a: seq<T>, b: seq<T>)
    requires forall i, j :: 0 <= i < j < |a| ==> a[i] != a[j]
    requires forall i, j :: 0 <= i < j < |b| ==> b[i] != b[j]
    requires forall x :: x in a <==> x in b
    ensures |a| == |b|
  {
    DistinctCardinality(a);
    DistinctCardinality(b);
    assert (set x | x in a) == (set x | x in b);
  }

  /** Nothing lies in an increasing sequence strictly between two neighbours,
      before its first element or after its last one. */
  lemma IncreasingGap(r: seq<nat>, m: nat, j: nat)
    requires Increasing(r) && m <= |r|
    requires m > 0 ==> r[m - 1] < j
    requires m < |r| ==> j < r[m]
    ensures j !in r
  {
    forall i | 0 <= i < |r| ensures r[i] != j {
      if i < m {
        assert r[i] <= r[m - 1];
      } else {
        assert r[m] <= r[i];
      }
    }
  }
}

=== FILE: socket_connector.dfy ===
/** The remote-spec channel of the Vega view: a version gate in front of a list
    of local subscribers. Connecting and the transport are not modelled; a
    callback is represented by an identifier, and invoking callbacks or
    broadcasting a version is an output of the transition. */
module SocketConnector {

  /** The opaque specification payload carried by messages. */
  type Spec = string

  /** A subscribed callback. */
  type CallbackId = nat

  datatype Connector = Connector(currentVersion: int, callbacks: seq<CallbackId>)

  /** What the connector does to the outside world. */
  datatype Output =
    | Invoked(callback: CallbackId, spec: Spec)
    | Broadcast(spec: Spec, version: int)

  /** The version before any message has been accepted. */
  const InitialVersion := -1

  /** A fresh connector: no version accepted yet, no subscriber. */
  function Initial(): (c: Connector)
    ensures c == Connector(-1, [])
  {
    Connector(InitialVersion, [])
  }

  /** Every callback invoked once with the spec, in subscription order. */
  function NotifyAll(callbacks: seq<CallbackId>, spec: Spec): (out: seq<Output>)
    ensures |out| == |callbacks|
    ensures forall k :: 0 <= k < |out| ==> out[k] == Invoked(callbacks[k], spec)
  {
    if |callbacks| == 0 then [] else [Invoked(callbacks[0], spec)] + NotifyAll(callbacks[1..], spec)
  }

  /** `onSpecChangedRemotely`: a message older than the current version is
      dropped; any other (an equal version included) becomes the current
      version and is handed to every subscriber. */
  function OnSpecChangedRemotely(c: Connector, spec: Spec, version: int): (r: (Connector, seq<Output>))
    ensures version < c.currentVersion ==> r.0 == c && r.1 == []
    ensures version >= c.currentVersion ==> r.0 == c.(currentVersion := version)
    ensures version >= c.currentVersion ==>
              |r.1| == |c.callbacks| && forall k :: 0 <= k < |r.1| ==> r.1[k] == Invoked(c.callbacks[k], spec)
    ensures r.0.currentVersion >= c.currentVersion && r.0.callbacks == c.callbacks
  {
    if version < c.currentVersion then (c, [])
    else (c.(currentVersion := version), NotifyAll(c.callbacks, spec))
  }

  /** `subscribeToRemoteChanges`: append one callback. */
  function Subscribe(c: Connector, callback: CallbackId): (r: Connector)
    ensures r.currentVersion == c.currentVersion
    ensures |r.callbacks| == |c.callbacks| + 1 && r.callbacks[..|c.callbacks|] == c.callbacks
    ensures r.callbacks[|c.callbacks|] == callback
  {
    c.(callbacks := c.callbacks + [callback])
  }

  /** `publishNewSpec`: broadcast the spec tagged with the current version,
      which is left as it is. */
  function PublishNewSpec(c: Connector, spec: Spec): (r: (Connector, Output))
    ensures r.0 == c
    ensures r.1.Broadcast? && r.1.spec == spec && r.1.version == c.currentVersion
  {
    (c, Broadcast(spec, c.currentVersion))
  }

  /** Everything that can happen to a connector. */
  datatype Event =
    | Receive(spec: Spec, version: int)
    | SubscribeCallback(callback: CallbackId)
    | Publish(spec: Spec)

  function Step(c: Connector, e: Event): (Connector, seq<Output>) {
    match e
    case Receive(spec, version) => OnSpecChangedRemotely(c, spec, version)
    case SubscribeCallback(callback) => (Subscribe(c, callback), [])
    case Publish(spec) => var (c', out) := PublishNewSpec(c, spec); (c', [out])
  }

  /** Run a sequence of events in order, collecting the outputs. */
  function Run(c: Connector, events: seq<Event>): (Connector, seq<Output>)
    decreases |events|
  {
    if |events| == 0 then (c, [])
    else
      var (c1, out1) := Step(c, events[0]);
      var (c2, out2) := Run(c1, events[1..]);
      (c2, out1 + out2)
  }

  /** The highest version among the received messages, starting from `floor`. */
  function MaxVersion(floor: int, events: seq<Event>): (m: int)
    ensures m >= floor
    ensures forall k :: 0 <= k < |events| && events[k].Receive? ==> events[k].version <= m
    ensures m == floor || exists k :: 0 <= k < |events| && events[k].Receive? && events[k].version == m
    decreases |events|
  {
    if |events| == 0 then floor
    else
      var rest := MaxVersion(floor, events[1..]);
      assert forall k :: 1 <= k < |events| ==> events[k] == events[1..][k - 1];
      if events[0].Receive? && events[0].version > rest then events[0].version else rest
  }

  /** After any sequence of events the current version is the larger of the
      starting version and the highest version received: stale messages never
      lower it. */
  lemma {:induction false} RunVersionIsMax(c: Connector, events: seq<Event>)
    ensures Run(c, events).0.currentVersion == MaxVersion(c.currentVersion, events)
    decreases |events|
  {
    if |events| > 0 {
      var c1 := Step(c, events[0]).0;
      RunVersionIsMax(c1, events[1..]);
      MaxVersionFloor(c.currentVersion, c1.currentVersion, events[1..]);
    }
  }

  /** Raising the floor to `floor'` only matters when it exceeds every received version. */
  lemma {:induction false} MaxVersionFloor(floor: int, floor': int, events: seq<Event>)
    requires floor <= floor'
    ensures MaxVersion(floor', events) == if MaxVersion(floor, events) > floor' then MaxVersion(floor, events) else floor'
    decreases |events|
  {
    if |events| > 0 {
      MaxVersionFloor(floor, floor', events[1..]);
    }
  }

  /** The current version never decreases, over any sequence of events. */
  lemma VersionMonotone(c: Connector, events: seq<Event>)
    ensures Run(c, events).0.currentVersion >= c.currentVersion
  {
    RunVersionIsMax(c, events);
  }

  /** Running two sequences one after the other is running their concatenation. */
  lemma {:induction false} RunAppend(c: Connector, a: seq<Event>, b: seq<Event>)
    ensures Run(c, a + b) == (Run(Run(c, a).0, b).0, Run(c, a).1 + Run(Run(c, a).0, b).1)
    decreases |a|
  {
    if |a| > 0 {
      var c1 := Step(c, a[0]).0;
      assert (a + b)[0] == a[0];
      assert (a + b)[1..] == a[1..] + b;
      RunAppend(c1, a[1..], b);
      var out1 := Step(c, a[0]).1;
      var mid := Run(c1, a[1..]);
      var last := Run(mid.0, b);
      assert Run(c, a) == (mid.0, out1 + mid.1);
      assert Run(c, a + b) == (last.0, out1 + (mid.1 + last.1));
      assert out1 + (mid.1 + last.1) == (out1 + mid.1) + last.1;
    } else {
      assert a + b == b;
      assert [] + Run(c, b).1 == Run(c, b).1;
    }
  }

  /** Across the prefixes of an event sequence the current version only grows. */
  lemma PrefixVersionsGrow(c: Connector, events: seq<Event>, i: nat, j: nat)
    requires i <= j <= |events|
    ensures Run(c, events[..i]).0.currentVersion <= Run(c, events[..j]).0.currentVersion
  {
    assert events[..j] == events[..i] + events[i..j];
    RunAppend(c, events[..i], events[i..j]);
    VersionMonotone(Run(c, events[..i]).0, events[i..j]);
  }

  /** A publish after any run is tagged with the highest version accepted so
      far (or the starting version), never with a stale one. */
  lemma PublishCarriesLatestVersion(c: Connector, events: seq<Event>, spec: Spec)
    ensures var out := Run(c, events + [Publish(spec)]).1;
            |out| > 0 && out[|out| - 1] == Broadcast(spec, MaxVersion(c.currentVersion, events))
  {
    RunAppend(c, events, [Publish(spec)]);
    RunVersionIsMax(c, events);
    var mid := Run(c, events).0;
    assert [Publish(spec)][1..] == [];
    assert Run(mid, [Publish(spec)]).1 == [Broadcast(spec, mid.currentVersion)];
  }

  /** Subscribers are only ever appended: the starting list stays a prefix. */
  lemma {:induction false} CallbacksOnlyGrow(c: Connector, events: seq<Event>)
    ensures |c.callbacks| <= |Run(c, events).0.callbacks|
    ensures Run(c, events).0.callbacks[..|c.callbacks|] == c.callbacks
    decreases |events|
  {
    if |events| > 0 {
      var c1 := Step(c, events[0]).0;
      CallbacksOnlyGrow(c1, events[1..]);
      assert c1.callbacks[..|c.callbacks|] == c.callbacks;
    }
  }
}

=== FILE: tabular.dfy ===
/** The tabular data that flows between nodes: typed columns, rows of cells,
    and subset packages that select rows of a dataset by index. */
module Tabular {
  import opened Options

  /** The semantic type inferred for a column. */
  datatype ValueType = Int | Float | String | Date | Empty | Error

  datatype Column = Column(index: nat, name: string, vtype: ValueType, hasDuplicates: bool)

  /** A cell holds a number or a piece of text. */
  datatype Cell = Num(n: real) | Text(s: string)

  type Row = seq<Cell>

  datatype Dataset = Dataset(name: string, columns: seq<Column>, rows: seq<Row>)

  /** Each column's index is its position and every row has one cell per column. */
  predicate WellFormed(d: Dataset) {
    && (forall k :: 0 <= k < |d.columns| ==> d.columns[k].index == k)
    && (forall r :: r in d.rows ==> |r| == |d.columns|)
  }

  /** One selected row of a package, with its visual overrides (colour, size, ...). */
  datatype Item = Item(index: nat, visuals: map<string, string>)

  /** A view over an optional dataset: the selected rows, in insertion order. */
  datatype Package = Package(dataset: Option<Dataset>, items: seq<Item>)

  /** Items name distinct, existing rows; a package without dataset has no items. */
  predicate WellFormedPackage(p: Package) {
    match p.dataset
    case None => p.items == []
    case Some(d) =>
      && WellFormed(d)
      && (forall k :: 0 <= k < |p.items| ==> p.items[k].index < |d.rows|)
      && (forall i, j :: 0 <= i < j < |p.items| ==> p.items[i].index != p.items[j].index)
  }

  /** The row indices of a list of items, in item order (`getItemIndices`). */
  function IndicesOf(items: seq<Item>): (r: seq<nat>)
    ensures |r| == |items|
    ensures forall k :: 0 <= k < |r| ==> r[k] == items[k].index
  {
    if |items| == 0 then [] else [items[0].index] + IndicesOf(items[1..])
  }
}

=== FILE: vega_history.dfy ===
/** History events of the Vega view node, and the column-selection handlers
    that commit them before applying the selection. Each event is a node
    option event: its type, a label (`caption`), the setter that re-applies it, and the
    new and previous column. */
module VegaHistory {
  import opened Options
  import opened VegaView

  /** The event types of the node; there is none for the colour column. */
  datatype VegaViewEventType = SelectXColumn | SelectYColumn

  /** The string value each event type carries. */
  function TypeName(t: VegaViewEventType): (name: string)
    ensures name == "setXColumn" <==> t == SelectXColumn
    ensures name == "setYColumn" <==> t == SelectYColumn
  {
    match t
    case SelectXColumn => "setXColumn"
    case SelectYColumn => "setYColumn"
  }

  datatype OptionEvent = OptionEvent(
    eventType: VegaViewEventType,
    caption: string,
    setter: ColumnSetter,
    value: Option<nat>,
    prev: Option<nat>)

  /** `selectXColumnEvent`: an event of type setXColumn, labelled "select X
      column", re-applied through the x setter; the new and the previous column
      (either may be null) are forwarded unchanged. */
  function SelectXColumnEvent(column: Option<nat>, prevColumn: Option<nat>): (e: OptionEvent)
    ensures TypeName(e.eventType) == "setXColumn" && e.caption == "select X column"
    ensures e.setter == SetXColumn
    ensures e.value == column && e.prev == prevColumn
  {
    OptionEvent(SelectXColumn, "select X column", SetXColumn, column, prevColumn)
  }

  /** `selectYColumnEvent`: the Y counterpart of `SelectXColumnEvent`. */
  function SelectYColumnEvent(column: Option<nat>, prevColumn: Option<nat>): (e: OptionEvent)
    ensures TypeName(e.eventType) == "setYColumn" && e.caption == "select Y column"
    ensures e.setter == SetYColumn
    ensures e.value == column && e.prev == prevColumn
  {
    OptionEvent(SelectYColumn, "select Y column", SetYColumn, column, prevColumn)
  }

  /** No event either constructor builds re-applies through the colour setter. */
  lemma NoColorEvent(column: Option<nat>, prevColumn: Option<nat>, e: OptionEvent)
    requires e == SelectXColumnEvent(column, prevColumn) || e == SelectYColumnEvent(column, prevColumn)
    ensures e.setter != SetColorColumn
    ensures e.eventType == SelectXColumn <==> e.setter == SetXColumn
  {
  }

  /** `onSelectXColumn`: commit an X-column event, then set and draw. The event
      re-applies through the very setter the handler used. */
  function OnSelectXColumn(s: ViewState, column: nat, prevColumn: Option<nat>, render: Renderer)
    : (r: (OptionEvent, ViewState))
    ensures r.0.eventType == SelectXColumn && r.0.value == Some(column) && r.0.prev == prevColumn
    ensures ColumnOf(r.1, r.0.setter) == Some(column)
    ensures r.1.yColumn == s.yColumn && r.1.colorColumn == s.colorColumn && SameBesideDrawn(s, r.1)
    ensures r.1.coverText == CoverText(s.spec, HasDataset(s))
    ensures SetColumn(s, r.0.setter, r.0.value, true, render) == r.1
  {
    (SelectXColumnEvent(Some(column), prevColumn), SetColumn(s, SetXColumn, Some(column), true, render))
  }

  /** `onSelectYColumn`: commit a Y-column event, then set and draw. */
  function OnSelectYColumn(s: ViewState, column: nat, prevColumn: Option<nat>, render: Renderer)
    : (r: (OptionEvent, ViewState))
    ensures r.0.eventType == SelectYColumn && r.0.value == Some(column) && r.0.prev == prevColumn
    ensures ColumnOf(r.1, r.0.setter) == Some(column)
    ensures r.1.xColumn == s.xColumn && r.1.colorColumn == s.colorColumn && SameBesideDrawn(s, r.1)
    ensures r.1.coverText == CoverText(s.spec, HasDataset(s))
    ensures SetColumn(s, r.0.setter, r.0.value, true, render) == r.1
  {
    (SelectYColumnEvent(Some(column), prevColumn), SetColumn(s, SetYColumn, Some(column), true, render))
  }

  /** `onSelectColorColumn`: commits a Y-column event (there is no colour
      event type), then sets the colour column. The recorded event therefore
      names `setYColumn` while the state change is to the colour column. */
  function OnSelectColorColumn(s: ViewState, column: nat, prevColumn: Option<nat>, render: Renderer)
    : (r: (OptionEvent, ViewState))
    ensures r.0.eventType == SelectYColumn && r.0.setter == SetYColumn
    ensures r.0.value == Some(column) && r.0.prev == prevColumn
    ensures r.1.colorColumn == Some(column)
    ensures r.1.xColumn == s.xColumn && r.1.yColumn == s.yColumn && SameBesideDrawn(s, r.1)
    ensures r.1.coverText == CoverText(s.spec, HasDataset(s))
    ensures SetColumn(s, r.0.setter, r.0.value, true, render) == r.1 <==> s.yColumn == Some(column) && s.colorColumn == Some(column)
  {
    (SelectYColumnEvent(Some(column), prevColumn), SetColumn(s, SetColorColumn, Some(column), true, render))
  }
}

=== FILE: vegaview.dfy ===
/** The Vega view node: column assignment, the cover-text decision, brushing
    into the node's selection, the row-to-record transposition handed to the
    Vega-Lite renderer, and the handling of a spec typed by the user.
    Rendering (parsing the spec into views, giving them the chosen columns as
    encodings, compiling and embedding them) is the parameter `render`; its
    outcome may be a throw, and `Draw` states which fields of the node a
    successful rendering replaces. */
module VegaView {
  import opened Options
  import opened Sequences
  import opened Tabular
  import opened Brushing

  const NoSpecCover := "Please enter a Vega-lite spec in the side panel"
  const NoDatasetCover := "No dataset"

  /** A parsed Vega-Lite specification, reduced to the one thing the node tests
      of it: whether JavaScript treats it as falsy (`null`, `false`, `0`, `""`)
      or not. The document is kept as its JSON text and is otherwise opaque. */
  datatype SpecValue = Falsy | Truthy(document: string)

  /** The example specification's JSON text, as `JSON.stringify` with a
      two-space indent writes it. */
  const ExampleSpecText: string :=
    "{\n"
    + "  \"$schema\": \"https://vega.github.io/schema/vega-lite/v4.json\",\n"
    + "  \"description\": \"Drag out a rectangular brush to highlight points.\",\n"
    + "  \"data\": {\n"
    + "    \"values\": []\n"
    + "  },\n"
    + "  \"selection\": {\n"
    + "    \"brush\": {\n"
    + "      \"type\": \"interval\"\n"
    + "    }\n"
    + "  },\n"
    + "  \"mark\": \"point\",\n"
    + "  \"encoding\": {\n"
    + "    \"x\": {\n"
    + "      \"field\": \"Horsepower\",\n"
    + "      \"type\": \"quantitative\"\n"
    + "    },\n"
    + "    \"y\": {\n"
    + "      \"field\": \"Miles_per_Gallon\",\n"
    + "      \"type\": \"quantitative\"\n"
    + "    },\n"
    + "    \"color\": {\n"
    + "      \"condition\": {\n"
    + "        \"selection\": \"brush\",\n"
    + "        \"field\": \"Cylinders\",\n"
    + "        \"type\": \"ordinal\"\n"
    + "      },\n"
    + "      \"value\": \"grey\"\n"
    + "    }\n"
    + "  }\n"
    + "}"

  /** The example specification the node starts with (a point plot of
      Horsepower against Miles_per_Gallon with an interval brush), held as its
      JSON text. */
  const ExampleSpec := Truthy(ExampleSpecText)

  /** The fields of the node that the modelled operations read or write. A
      column is `None` when it is `null` or `undefined`. */
  datatype ViewState = ViewState(
    spec: SpecValue,
    specText: string,
    input: Package,
    xColumn: Option<nat>,
    yColumn: Option<nat>,
    colorColumn: Option<nat>,
    coverText: string,
    selection: seq<nat>,
    viewsInSpec: seq<string>,
    selectedViewIndex: int)

  /** The three column setters of the node. */
  datatype ColumnSetter = SetXColumn | SetYColumn | SetColorColumn

  /** The JSON text the node keeps for a spec: the spec itself for a truthy
      one, `{}` for a falsy one. */
  function SpecText(spec: SpecValue): (text: string)
    ensures spec.Truthy? ==> text == spec.document
    ensures spec.Falsy? ==> text == "{}"
  {
    match spec
    case Truthy(document) => document
    case Falsy => "{}"
  }

  /** A freshly created node over the given input, from the field
      initialisers: the example spec and its JSON text, no column chosen,
      nothing selected, no view listed, the first view selected. The input and
      the empty selection stand for what the base node class provides. */
  function Initial(input: Package): (s: ViewState)
    ensures s.spec == ExampleSpec && s.spec.Truthy? && s.specText == ExampleSpecText
    ensures s.specText == SpecText(s.spec) && s.input == input
    ensures s.xColumn.None? && s.yColumn.None? && s.colorColumn.None?
    ensures s.selection == [] && s.viewsInSpec == [] && s.selectedViewIndex == 0
  {
    var spec := ExampleSpec;
    ViewState(spec, SpecText(spec), input, None, None, None, "", [], [], 0)
  }

  /** One view of the parsed spec's flat view hierarchy: its id and the
      specification compiled from it. */
  datatype RenderedView = RenderedView(id: string, compiled: string)

  /** What the rendering libraries make of the node state: the flat view
      hierarchy, the compiled root specification and its JSON text, and whether
      the side panel's canvas for the selected view exists. */
  datatype Rendering = Rendering(views: seq<RenderedView>, rootCompiled: string, rootText: string, sidePanel: bool)

  /** The render path as a function of the node state; `None` when it throws,
      as it does when a chosen column is not found in the dataset and its
      type is read. */
  type Renderer = ViewState -> Option<Rendering>

  /** JavaScript truthiness of a column: column 0 counts as unset. */
  predicate IsSet(column: Option<nat>) {
    column.Some? && column.value != 0
  }

  predicate HasDataset(s: ViewState) {
    s.input.dataset.Some?
  }

  /** The column a setter writes. */
  function ColumnOf(s: ViewState, setter: ColumnSetter): Option<nat> {
    match setter
    case SetXColumn => s.xColumn
    case SetYColumn => s.yColumn
    case SetColorColumn => s.colorColumn
  }

  /** `s` and `r` agree on everything but the three columns and the cover text. */
  predicate SameBesideColumnsAndCover(s: ViewState, r: ViewState) {
    r.(xColumn := s.xColumn, yColumn := s.yColumn, colorColumn := s.colorColumn, coverText := s.coverText) == s
  }

  /** `s` and `r` agree on everything but the columns, the cover text and the
      three fields rendering rewrites: the spec, its text and the view list. */
  predicate SameBesideDrawn(s: ViewState, r: ViewState) {
    r.(xColumn := s.xColumn, yColumn := s.yColumn, colorColumn := s.colorColumn, coverText := s.coverText,
       spec := s.spec, specText := s.specText, viewsInSpec := s.viewsInSpec) == s
  }

  /** `draw` goes on to render exactly when there is a spec and a dataset. */
  predicate Renders(s: ViewState) {
    s.spec.Truthy? && HasDataset(s)
  }

  /** Drawing `s` throws: it renders, and the render path fails. */
  predicate DrawThrows(s: ViewState, render: Renderer) {
    Renders(s) && render(s).None?
  }

  /** The ids of the views, in hierarchy order. */
  function ViewIds(views: seq<RenderedView>): (ids: seq<string>)
    ensures |ids| == |views| && forall k :: 0 <= k < |ids| ==> ids[k] == views[k].id
  {
    seq(|views|, k requires 0 <= k < |views| => views[k].id)
  }

  /** The spec left in the node after rendering: the root's compiled spec,
      overwritten by the selected view's when that view exists and the side
      panel is open (a missing view renders nothing). */
  function RenderedSpec(index: int, out: Rendering): SpecValue {
    if 0 <= index < |out.views| && out.sidePanel then Truthy(out.views[index].compiled)
    else Truthy(out.rootCompiled)
  }

  /** The cover text `draw` shows: a prompt without spec, a notice without
      dataset, and nothing once both are present. */
  function CoverText(spec: SpecValue, hasDataset: bool): (text: string)
    ensures text == NoSpecCover <==> spec.Falsy?
    ensures text == NoDatasetCover <==> spec.Truthy? && !hasDataset
    ensures text == "" <==> spec.Truthy? && hasDataset
  {
    if spec.Falsy? then NoSpecCover
    else if !hasDataset then NoDatasetCover
    else ""
  }

  /** `draw`: set the cover text; with a spec and a dataset, render, which
      lists the spec's views and replaces the spec and its text by their
      compiled forms. A render path that throws leaves the node as it stood
      with the cover text cleared. The dataset, the columns, the selection and
      the selected view index are never touched, and a spec stays a spec. */
  function Draw(s: ViewState, render: Renderer): (r: ViewState)
    ensures r.coverText == CoverText(s.spec, HasDataset(s))
    ensures SameBesideDrawn(s, r) && r.xColumn == s.xColumn && r.yColumn == s.yColumn && r.colorColumn == s.colorColumn
    ensures Renders(r) == Renders(s) && r.spec.Truthy? == s.spec.Truthy?
    ensures !Renders(s) || DrawThrows(s, render) ==> r == s.(coverText := r.coverText)
    ensures Renders(s) && render(s).Some? ==>
              && r.viewsInSpec == ViewIds(render(s).value.views)
              && r.specText == render(s).value.rootText
              && r.spec == RenderedSpec(s.selectedViewIndex, render(s).value)
  {
    var covered := s.(coverText := CoverText(s.spec, HasDataset(s)));
    if !Renders(s) then covered
    else
      match render(s)
      case None => covered
      case Some(out) =>
        covered.(viewsInSpec := ViewIds(out.views), specText := out.rootText,
                 spec := RenderedSpec(s.selectedViewIndex, out))
  }

  /** The node with one column stored and nothing else changed. */
  function Store(s: ViewState, setter: ColumnSetter, column: Option<nat>): ViewState {
    match setter
    case SetXColumn => s.(xColumn := column)
    case SetYColumn => s.(yColumn := column)
    case SetColorColumn => s.(colorColumn := column)
  }

  /** `setXColumn`, `setYColumn`, `setColorColumn`: store the column and draw
      when asked to. Without a draw, or when the draw does not render or
      throws, only the column (and the cover text) changes; a rendering draw
      sees the stored column. The column is stored before any throw. */
  function SetColumn(s: ViewState, setter: ColumnSetter, column: Option<nat>, drawAfter: bool,
                     render: Renderer): (r: ViewState)
    ensures ColumnOf(r, setter) == column
    ensures forall other :: other != setter ==> ColumnOf(r, other) == ColumnOf(s, other)
    ensures SameBesideDrawn(s, r) && Renders(r) == Renders(s)
    ensures !(drawAfter && Renders(s) && render(Store(s, setter, column)).Some?) ==> SameBesideColumnsAndCover(s, r)
    ensures r.coverText == if drawAfter then CoverText(s.spec, HasDataset(s)) else s.coverText
    ensures drawAfter && Renders(s) && render(Store(s, setter, column)).Some? ==>
              var out := render(Store(s, setter, column)).value;
              && r.viewsInSpec == ViewIds(out.views)
              && r.specText == out.rootText
              && r.spec == RenderedSpec(s.selectedViewIndex, out)
  {
    var stored := Store(s, setter, column);
    if drawAfter then Draw(stored, render) else stored
  }

  /** The indices of the columns whose type is (`wanted`) or is not (`!wanted`)
      numerical, in column order. */
  function IndicesWhere(columns: seq<Column>, isNumerical: ValueType -> bool, wanted: bool): (r: seq<nat>)
    ensures |r| <= |columns|
  {
    if |columns| == 0 then []
    else
      var rest := IndicesWhere(columns[1..], isNumerical, wanted);
      if isNumerical(columns[0].vtype) == wanted then [columns[0].index] + rest else rest
  }

  /** When column indices count up from `offset`, the matching indices are
      exactly the matching positions (shifted by `offset`), in increasing order. */
  lemma {:induction false} IndicesWhereEnumerates(columns: seq<Column>, isNumerical: ValueType -> bool, wanted: bool, offset: nat)
    requires forall k :: 0 <= k < |columns| ==> columns[k].index == offset + k
    ensures Increasing(IndicesWhere(columns, isNumerical, wanted))
    ensures forall i :: i in IndicesWhere(columns, isNumerical, wanted) <==>
              offset <= i < offset + |columns| && isNumerical(columns[i - offset].vtype) == wanted
    decreases |columns|
  {
    if |columns| > 0 {
      var tail := columns[1..];
      IndicesWhereEnumerates(tail, isNumerical, wanted, offset + 1);
      var r := IndicesWhere(columns, isNumerical, wanted);
      var rest := IndicesWhere(tail, isNumerical, wanted);
      var matches := isNumerical(columns[0].vtype) == wanted;
      assert r == if matches then [offset] + rest else rest;
      forall i | offset < i < offset + |columns|
        ensures (i in rest) <==> isNumerical(columns[i - offset].vtype) == wanted
      {
        assert tail[i - (offset + 1)] == columns[i - offset];
      }
      assert forall j :: 0 <= j < |rest| ==> offset < rest[j] by {
        forall j | 0 <= j < |rest| ensures offset < rest[j] {
          assert rest[j] in rest;
        }
      }
    }
  }

  /** `slice(0, 2)`. */
  function TakeTwo(q: seq<nat>): (r: seq<nat>)
    ensures forall k :: k < 2 ==> At(r, k) == At(q, k)
  {
    if |q| <= 2 then q else q[..2]
  }

  /** `shift()`: the head (or `undefined`) and the rest. */
  function Shift(q: seq<nat>): (r: (Option<nat>, seq<nat>))
    ensures r.0 == At(q, 0)
    ensures forall k: nat :: At(r.1, k) == At(q, k + 1)
  {
    if |q| == 0 then (None, q) else (Some(q[0]), q[1..])
  }

  /** The numerical column indices of the input dataset, in column order. */
  function NumericalIndices(s: ViewState, isNumerical: ValueType -> bool): seq<nat>
    requires HasDataset(s)
  {
    IndicesWhere(s.input.dataset.value.columns, isNumerical, true)
  }

  /** The non-numerical column indices of the input dataset, in column order. */
  function OrdinalIndices(s: ViewState, isNumerical: ValueType -> bool): seq<nat>
    requires HasDataset(s)
  {
    IndicesWhere(s.input.dataset.value.columns, isNumerical, false)
  }

  /** The columns `findDefaultColumns` settles on, as (x, y, colour). A column
      that is set is carried over to the new dataset by `remap`; an unset one
      (including column 0) takes the next unused numerical column (x, y) or the
      first non-numerical one (colour). Whether a type is numerical is the
      parameter `isNumerical`. */
  function ChooseColumns(s: ViewState, isNumerical: ValueType -> bool, remap: nat -> Option<nat>)
    : (c: (Option<nat>, Option<nat>, Option<nat>))
    requires HasDataset(s)
    ensures IsSet(s.xColumn) ==> c.0 == remap(s.xColumn.value)
    ensures IsSet(s.yColumn) ==> c.1 == remap(s.yColumn.value)
    ensures IsSet(s.colorColumn) ==> c.2 == remap(s.colorColumn.value)
    ensures !IsSet(s.xColumn) ==> c.0 == At(NumericalIndices(s, isNumerical), 0)
    ensures !IsSet(s.yColumn) ==> c.1 == At(NumericalIndices(s, isNumerical), if IsSet(s.xColumn) then 0 else 1)
    ensures !IsSet(s.colorColumn) ==> c.2 == At(OrdinalIndices(s, isNumerical), 0)
  {
    var numerical := TakeTwo(NumericalIndices(s, isNumerical));
    var ordinal := TakeTwo(OrdinalIndices(s, isNumerical));
    var (x, afterX) := if IsSet(s.xColumn) then (remap(s.xColumn.value), numerical) else Shift(numerical);
    var (y, _) := if IsSet(s.yColumn) then (remap(s.yColumn.value), afterX) else Shift(afterX);
    var (color, _) := if IsSet(s.colorColumn) then (remap(s.colorColumn.value), ordinal) else Shift(ordinal);
    (x, y, color)
  }

  /** `findDefaultColumns`: without a dataset nothing happens; with one the
      chosen columns are stored through the setters without drawing, and the
      node is drawn once at the end. */
  function FindDefaultColumns(s: ViewState, isNumerical: ValueType -> bool, remap: nat -> Option<nat>,
                              render: Renderer): (r: ViewState)
    ensures !HasDataset(s) ==> r == s
    ensures HasDataset(s) ==>
              var c := ChooseColumns(s, isNumerical, remap);
              && r.xColumn == c.0 && r.yColumn == c.1 && r.colorColumn == c.2
              && r.coverText == CoverText(s.spec, true)
              && r == Draw(s.(xColumn := c.0, yColumn := c.1, colorColumn := c.2), render)
  {
    if !HasDataset(s) then s
    else
      var (x, y, color) := ChooseColumns(s, isNumerical, remap);
      var s1 := SetColumn(s, SetXColumn, x, false, render);
      var s2 := SetColumn(s1, SetYColumn, y, false, render);
      var s3 := SetColumn(s2, SetColorColumn, color, false, render);
      Draw(s3, render)
  }

  /** `k` is the first column after position `after` whose type is (or is not)
      numerical. */
  ghost predicate NextMatch(columns: seq<Column>, isNumerical: ValueType -> bool, wanted: bool, after: int, k: nat) {
    && after < k < |columns|
    && isNumerical(columns[k].vtype) == wanted
    && forall j :: 0 <= j && after < j < k ==> isNumerical(columns[j].vtype) != wanted
  }

  /** No column after position `after` has a type that is (or is not) numerical. */
  ghost predicate NoMatchAfter(columns: seq<Column>, isNumerical: ValueType -> bool, wanted: bool, after: int) {
    forall j :: 0 <= j && after < j < |columns| ==> isNumerical(columns[j].vtype) != wanted
  }

  /** The `k`-th element of the enumeration of matching columns is the next
      match after the `(k-1)`-th one; past its end there is none. */
  lemma IndicesWhereStep(columns: seq<Column>, isNumerical: ValueType -> bool, wanted: bool, k: nat)
    requires forall i :: 0 <= i < |columns| ==> columns[i].index == i
    ensures var r := IndicesWhere(columns, isNumerical, wanted);
            var after := if k == 0 then -1 else if k - 1 < |r| then r[k - 1] else |columns|;
            (k < |r| ==> NextMatch(columns, isNumerical, wanted, after, r[k])) &&
            (k == |r| ==> NoMatchAfter(columns, isNumerical, wanted, after))
  {
    var r := IndicesWhere(columns, isNumerical, wanted);
    var after := if k == 0 then -1 else if k - 1 < |r| then r[k - 1] else |columns|;
    IndicesWhereEnumerates(columns, isNumerical, wanted, 0);
    if k < |r| {
      assert r[k] in r;
      if k > 0 {
        assert r[k - 1] < r[k];
      }
      forall j | after < j < r[k] ensures isNumerical(columns[j].vtype) != wanted {
        IncreasingGap(r, k, j);
      }
    } else if k == |r| {
      forall j | after < j < |columns| ensures isNumerical(columns[j].vtype) != wanted {
        IncreasingGap(r, k, j);
      }
    }
  }

  /** An unset x (null, undefined or column 0) becomes the first numerical
      column, and stays unset exactly when there is none. */
  lemma DefaultXWhenUnset(s: ViewState, isNumerical: ValueType -> bool, remap: nat -> Option<nat>)
    requires WellFormedPackage(s.input) && HasDataset(s) && !IsSet(s.xColumn)
    ensures var columns := s.input.dataset.value.columns;
            var x := ChooseColumns(s, isNumerical, remap).0;
            && (x.Some? ==> NextMatch(columns, isNumerical, true, -1, x.value))
            && (x.None? ==> NoMatchAfter(columns, isNumerical, true, -1))
  {
    IndicesWhereStep(s.input.dataset.value.columns, isNumerical, true, 0);
  }

  /** With x and y both unset, y becomes the next numerical column after the
      one x took, and stays unset exactly when there is no further one. */
  lemma DefaultYWhenUnset(s: ViewState, isNumerical: ValueType -> bool, remap: nat -> Option<nat>)
    requires WellFormedPackage(s.input) && HasDataset(s) && !IsSet(s.xColumn) && !IsSet(s.yColumn)
    ensures var columns := s.input.dataset.value.columns;
            var (x, y, _) := ChooseColumns(s, isNumerical, remap);
            && (y.Some? ==> x.Some? && NextMatch(columns, isNumerical, true, x.value, y.value))
            && (y.None? ==> x.None? || NoMatchAfter(columns, isNumerical, true, x.value))
  {
    var columns := s.input.dataset.value.columns;
    IndicesWhereStep(columns, isNumerical, true, 1);
  }

  /** An unset colour becomes the first non-numerical column, and stays unset
      exactly when there is none. */
  lemma DefaultColorWhenUnset(s: ViewState, isNumerical: ValueType -> bool, remap: nat -> Option<nat>)
    requires WellFormedPackage(s.input) && HasDataset(s) && !IsSet(s.colorColumn)
    ensures var columns := s.input.dataset.value.columns;
            var color := ChooseColumns(s, isNumerical, remap).2;
            && (color.Some? ==> NextMatch(columns, isNumerical, false, -1, color.value))
            && (color.None? ==> NoMatchAfter(columns, isNumerical, false, -1))
  {
    IndicesWhereStep(s.input.dataset.value.columns, isNumerical, false, 0);
  }

  /** The draw that closes `findDefaultColumns` throws. */
  predicate DefaultsDrawThrows(s: ViewState, isNumerical: ValueType -> bool, remap: nat -> Option<nat>, render: Renderer) {
    HasDataset(s) &&
    var c := ChooseColumns(s, isNumerical, remap);
    DrawThrows(s.(xColumn := c.0, yColumn := c.1, colorColumn := c.2), render)
  }

  /** `applyColumns`: no column defers to the defaults, one column goes to both
      axes, two or more set x and y from the first two; colour is untouched.
      Each setter draws, and so does the end; a draw that throws abandons the
      rest, so a failing draw after x leaves y as it was. Without a rendering
      draw only columns and cover text change. */
  function ApplyColumns(s: ViewState, columns: seq<nat>, isNumerical: ValueType -> bool, remap: nat -> Option<nat>,
                        render: Renderer): (r: ViewState)
    ensures SameBesideDrawn(s, r) && Renders(r) == Renders(s)
    ensures !Renders(s) ==> SameBesideColumnsAndCover(s, r)
    ensures r.coverText == CoverText(s.spec, HasDataset(s))
    ensures |columns| == 0 ==>
              var defaults := FindDefaultColumns(s, isNumerical, remap, render);
              r.xColumn == defaults.xColumn && r.yColumn == defaults.yColumn && r.colorColumn == defaults.colorColumn
    ensures |columns| >= 1 ==> r.xColumn == Some(columns[0]) && r.colorColumn == s.colorColumn
    ensures |columns| >= 1 && DrawThrows(Store(s, SetXColumn, Some(columns[0])), render) ==>
              r.yColumn == s.yColumn && r == SetColumn(s, SetXColumn, Some(columns[0]), true, render)
    ensures |columns| == 1 && !DrawThrows(Store(s, SetXColumn, Some(columns[0])), render) ==>
              r.yColumn == Some(columns[0])
    ensures |columns| >= 2 && !DrawThrows(Store(s, SetXColumn, Some(columns[0])), render) ==>
              r.yColumn == Some(columns[1])
  {
    if |columns| == 0 then
      var s1 := FindDefaultColumns(s, isNumerical, remap, render);
      if DefaultsDrawThrows(s, isNumerical, remap, render) then s1 else Draw(s1, render)
    else
      var y := if |columns| == 1 then columns[0] else columns[1];
      var s1 := SetColumn(s, SetXColumn, Some(columns[0]), true, render);
      if DrawThrows(Store(s, SetXColumn, Some(columns[0])), render) then s1
      else
        var s2 := SetColumn(s1, SetYColumn, Some(y), true, render);
        if DrawThrows(Store(s1, SetYColumn, Some(y)), render) then s2 else Draw(s2, render)
  }

  /** The indices of a subsequence of distinctly indexed items form a
      subsequence of their indices. */
  lemma {:induction false} IndicesOfSubsequence(sub: seq<Item>, items: seq<Item>)
    requires Subsequence(sub, items)
    ensures Subsequence(IndicesOf(sub), IndicesOf(items))
    decreases |items|
  {
    if |sub| > 0 {
      if sub[0] == items[0] && Subsequence(sub[1..], items[1..]) {
        IndicesOfSubsequence(sub[1..], items[1..]);
      } else {
        IndicesOfSubsequence(sub, items[1..]);
      }
    }
  }

  /** Among items with distinct indices, an item's index is among the indices
      of some of the items exactly when the item is one of them. */
  lemma IndicesOfSelected(sub: seq<Item>, items: seq<Item>)
    requires forall it :: it in sub ==> it in items
    requires forall i, j :: 0 <= i < j < |items| ==> items[i].index != items[j].index
    ensures forall it :: it in items ==> (it.index in IndicesOf(sub) <==> it in sub)
    ensures forall i :: i in IndicesOf(sub) ==> i in IndicesOf(items)
  {
    var selection := IndicesOf(sub);
    forall it | it in items ensures it.index in selection <==> it in sub {
      if it.index in selection {
        var k :| 0 <= k < |selection| && selection[k] == it.index;
        assert sub[k] in sub;
        var p :| 0 <= p < |items| && items[p] == it;
        var q :| 0 <= q < |items| && items[q] == sub[k];
        assert p == q;
      }
      if it in sub {
        var k :| 0 <= k < |sub| && sub[k] == it;
        assert selection[k] == it.index;
      }
    }
    forall i | i in selection ensures i in IndicesOf(items) {
      var k :| 0 <= k < |selection| && selection[k] == i;
      assert sub[k] in sub;
      var p :| 0 <= p < |items| && items[p] == sub[k];
      assert IndicesOf(items)[p] == i;
    }
  }

  /** The brush can be evaluated on the node's input. */
  predicate CanBrush(s: ViewState, brush: Brush) {
    && WellFormedPackage(s.input)
    && (HasDataset(s) ==> Brushable(s.input.dataset.value, brush))
  }

  /** `onViewBrushed`: with a dataset, the selection is replaced by the indices
      of the input items inside the brush, in input order; without one,
      nothing changes. */
  function OnViewBrushed(s: ViewState, brush: Brush): (r: ViewState)
    requires CanBrush(s, brush)
    ensures !HasDataset(s) ==> r == s
    ensures r == s.(selection := r.selection)
    ensures HasDataset(s) ==> Subsequence(r.selection, IndicesOf(s.input.items))
    ensures HasDataset(s) ==>
              var d := s.input.dataset.value;
              forall it :: it in s.input.items ==> (it.index in r.selection <==> RowInBrush(d, d.rows[it.index], brush))
    ensures HasDataset(s) ==> forall i :: i in r.selection ==> i in IndicesOf(s.input.items)
  {
    if !HasDataset(s) then s
    else
      var d := s.input.dataset.value;
      var inBrush := GetItemsInBrush(d, s.input.items, brush);
      IndicesOfSubsequence(inBrush, s.input.items);
      IndicesOfSelected(inBrush, s.input.items);
      var selection := IndicesOf(inBrush);
      s.(selection := selection)
  }

  /** The names of a list of columns. */
  function Names(columns: seq<Column>): set<string> {
    set c | c in columns :: c.name
  }

  /** The record the renderer receives for one row: each column's name mapped
      to the row's cell at that column, filled in column order so that of
      equally named columns the last one wins. */
  function Record(row: Row, columns: seq<Column>): (m: map<string, Cell>)
    requires forall k :: 0 <= k < |columns| ==> columns[k].index < |row|
    ensures m.Keys == Names(columns)
    decreases |columns|
  {
    if |columns| == 0 then map[]
    else
      var last := columns[|columns| - 1];
      var init := columns[..|columns| - 1];
      assert Names(columns) == Names(init) + {last.name} by {
        assert forall c :: c in columns <==> c in init || c == last;
      }
      Record(row, init)[last.name := row[last.index]]
  }

  /** A column whose name no later column repeats contributes its own cell. */
  lemma {:induction false} RecordHoldsCell(row: Row, columns: seq<Column>, k: nat)
    requires forall i :: 0 <= i < |columns| ==> columns[i].index < |row|
    requires k < |columns|
    requires forall j :: k < j < |columns| ==> columns[j].name != columns[k].name
    ensures columns[k].name in Record(row, columns)
    ensures Record(row, columns)[columns[k].name] == row[columns[k].index]
    decreases |columns|
  {
    var init := columns[..|columns| - 1];
    if k < |columns| - 1 {
      assert init[k] == columns[k];
      assert forall j :: k < j < |init| ==> init[j] == columns[j];
      RecordHoldsCell(row, init, k);
    }
  }

  /** The rows of the input dataset whose index is an item index, in row order. */
  function SelectedRows(p: Package): (r: seq<nat>)
    requires p.dataset.Some?
    ensures Increasing(r)
    ensures forall i :: i in r <==> i < |p.dataset.value.rows| && i in IndicesOf(p.items)
    ensures forall k :: 0 <= k < |r| ==> r[k] < |p.dataset.value.rows|
  {
    var selected := IndicesOf(p.items);
    var r := Enumerate(0, |p.dataset.value.rows|, i => i in selected);
    assert forall k :: 0 <= k < |r| ==> r[k] in r;
    r
  }

  /** `getTransposedDataset`: one record per dataset row that is an input
      item, in dataset row order (not item order); none without a dataset. */
  function GetTransposedDataset(p: Package): (r: seq<map<string, Cell>>)
    requires p.dataset.Some? ==> WellFormed(p.dataset.value)
    ensures p.dataset.None? ==> r == []
    ensures p.dataset.Some? ==> |r| == |SelectedRows(p)|
    ensures p.dataset.Some? ==> forall k :: 0 <= k < |r| ==>
              r[k] == Record(p.dataset.value.rows[SelectedRows(p)[k]], p.dataset.value.columns)
  {
    if p.dataset.None? then []
    else
      var d := p.dataset.value;
      var rows := SelectedRows(p);
      seq(|rows|, k requires 0 <= k < |rows| => Record(d.rows[rows[k]], d.columns))
  }

  /** A well-formed package yields exactly one record per item. */
  lemma TransposedRecordPerItem(p: Package)
    requires WellFormedPackage(p) && p.dataset.Some?
    ensures |GetTransposedDataset(p)| == |p.items|
  {
    var rows := SelectedRows(p);
    var indices := IndicesOf(p.items);
    forall i | i in indices ensures i in rows {
      var k :| 0 <= k < |indices| && indices[k] == i;
    }
    SameElementsSameLength(rows, indices);
  }

  /** `onInputSpecChanged`: a spec that fails to parse only shows the parse
      error; a falsy one is ignored; otherwise it replaces the spec and its
      text and the default columns are recomputed. Without a dataset that is
      all; with one, the closing draw renders, so the node ends up holding the
      compiled form of the new spec rather than the typed one. */
  function OnInputSpecChanged(s: ViewState, input: string, parsed: Result<SpecValue, string>,
                              isNumerical: ValueType -> bool, remap: nat -> Option<nat>,
                              render: Renderer): (r: ViewState)
    ensures parsed.Failure? ==> r == s.(coverText := parsed.error)
    ensures parsed == Success(Falsy) ==> r == s
    ensures parsed.Success? && parsed.value.Truthy? && !HasDataset(s) ==>
              r == s.(spec := parsed.value, specText := input)
    ensures parsed.Success? && parsed.value.Truthy? && HasDataset(s) ==>
              && r == FindDefaultColumns(s.(spec := parsed.value, specText := input), isNumerical, remap, render)
              && r == Draw(s.(spec := parsed.value, specText := input,
                              xColumn := r.xColumn, yColumn := r.yColumn, colorColumn := r.colorColumn), render)
    ensures !(parsed.Success? && parsed.value.Truthy?) ==> r.spec == s.spec && r.specText == s.specText
  {
    var afterParse := if parsed.Failure? then s.(coverText := parsed.error) else s;
    var newSpec := if parsed.Success? then parsed.value else Falsy;
    if newSpec.Truthy? then
      FindDefaultColumns(afterParse.(spec := newSpec, specText := input), isNumerical, remap, render)
    else afterParse
  }

  /** `getVegaNameForColumnType`: the Vega-Lite encoding type of a column type.
      Dates are temporal, integers and floats quantitative, and every other
      type, the empty and error types included, nominal. */
  function GetVegaNameForColumnType(t: ValueType): (name: string)
    ensures name == "temporal" || name == "quantitative" || name == "nominal"
    ensures name == "temporal" <==> t == Date
    ensures name == "quantitative" <==> t == Int || t == Float
    ensures name == "nominal" <==> t == String || t == Empty || t == Error
  {
    match t
    case Date => "temporal"
    case Empty => "nominal"
    case Int => "quantitative"
    case Float => "quantitative"
    case String => "nominal"
    case Error => "nominal"
  }

  /** `onSelectedViewChanged`: the position of the chosen view's name, or -1. */
  function OnSelectedViewChanged(s: ViewState, viewName: string): (r: ViewState)
    ensures r == s.(selectedViewIndex := r.selectedViewIndex)
    ensures r.selectedViewIndex == -1 <==> viewName !in s.viewsInSpec
    ensures r.selectedViewIndex >= 0 ==>
              && r.selectedViewIndex < |s.viewsInSpec|
              && s.viewsInSpec[r.selectedViewIndex] == viewName
              && forall j :: 0 <= j < r.selectedViewIndex ==> s.viewsInSpec[j] != viewName
  {
    s.(selectedViewIndex := IndexOf(s.viewsInSpec, viewName))
  }
}
